=== FILE: README.md ===
# simple-tts: batch text-to-speech, modelled in Dafny

simple-tts is a Streamlit page. It reads an Excel sheet of (file name, text) rows, converts each text to speech, and offers the MP3 files as one ZIP archive. The page can use one voice or two. With two voices, each text is read by the first voice, then 500 ms of silence follows, then the second voice reads it.

This project models the decision logic of `app.py` and proves properties of it:

- **Conversion** (`Synthesis`, `Audio`): `text_to_speech_async_dual`.
  - The choice between single- and dual-voice mode.
  - The requests sent to the speech service.
  - The layout `first voice + 500 ms silence + second voice`.
  - The rule that any failure fails the whole conversion.
  - The speech service, the MP3 decoder and the MP3 encoder are abstract functions. Each of them may fail.
  - Audio is a sequence of samples, one per millisecond.
- **File-name cleaning** (`PyText`, `Sanitize`): the generator expression at line 227.
  - `str.strip()`, `str.rstrip()` and `str.isspace()` follow Python's definitions.
  - `str.isalnum` is a parameter, because it is Unicode-aware. `AsciiAlnum` is its ASCII instance.
- **The row loop** (`Batch`): lines 218-238 of `main`, written as a pure fold.
  - Every cell is stripped. A row with an empty cell is skipped with a warning.
  - The name is cleaned and the text is converted. A failure is reported, and the loop goes on.
  - Successes are collected as `audio_files`.
  - `create_zip_file` names each archive entry `{filename}.mp3` (`Naming`).
- **The temporary directory** (`Staging`): the files a conversion writes and deletes, and the archive built from what is left. This is where the finding below lives.

All modules are verified together: `base.dfy`, `pytext.dfy`, `sanitize.dfy`, `audio.dfy`, `naming.dfy`, `synthesis.dfy`, `batch.dfy` and `staging.dfy`.

## Model

| member | source | states |
|---|---|---|
| Synthesis.PlanFor | app.py:43 | Single-voice mode holds exactly when the second voice is missing or equals the first. In dual mode the first voice is `voice1`, the second is `voice2`, and they differ. |
| Synthesis.Requests | app.py:50-56 | Every request a plan issues carries the same text. |
| Synthesis.Fetch | app.py:50-56 | One call to the speech service: it succeeds exactly when the service returns a file, it returns that file, and a failure names the voice that was asked for. |
| Synthesis.Convert | app.py:41-78 | In single-voice mode the result succeeds exactly when the one synthesis succeeds, and it is that synthesis's file, untouched. A dual-mode success implies both syntheses succeeded. A synthesis error names one of the two chosen voices. The dual-mode converse and the error kinds are `DualVoiceSucceeds` and `DualVoiceErrors`. |
| Synthesis.DualVoiceLayout | app.py:49-70 | A successful dual-voice result is the encoding of `Merge(clip1, clip2)`. Both clips are decoded from the service's files, and the first voice comes first. |
| Synthesis.DualVoiceSucceeds | app.py:49-78 | When both syntheses, both decodes and the export succeed, the dual-voice conversion succeeds, and its result is the exported merge of the two decoded clips, first voice first. |
| Synthesis.DualVoiceErrors | app.py:49-70 | A dual-voice conversion fails at the first step that fails, with an error that says which step: the first voice's synthesis, the second voice's synthesis, a decode, or the export. |
| Synthesis.DualVoiceDecodesToLayout | app.py:59-70 | For a lossless codec, one that reads back exactly what it writes, the result decodes to clip 1, exactly 500 ms of silence, then clip 2. MP3 is lossy, so for the real codec this is the layout before encoding. Its duration is `|clip1| + 500 + |clip2|`. |
| Synthesis.ConvertUsesOnlyPlannedRequests | app.py:43-56 | The result depends on the speech service only through the planned requests: the same text, with `voice1` and, in dual mode, `voice2`. |
| Synthesis.SingleVoiceIgnoresCodec | app.py:43-45 | Single-voice mode never decodes or re-encodes: the result does not depend on the codec. |
| Synthesis.DualVoiceFailsIfEitherVoiceFails | app.py:50-56 | If either voice's synthesis fails, the dual-voice conversion fails. No partial merge is returned. |
| Audio.Silence | app.py:63 | The gap clip has the requested length and every sample is zero. |
| Audio.Merge | app.py:63-66 | The merged clip has length `|first| + 500 + |second|`. It starts with `first` unchanged, continues with 500 zero samples, and ends with `second` unchanged. |
| Audio.SplitMerge | app.py:66 | Splitting a merged clip at the first clip's length recovers both clips in order, with a silent gap between them. |
| Audio.MergeSplit | app.py:66 | A clip with a silent gap after `k` samples is the merge of its two parts: `Merge` and `Split` are inverse. |
| Audio.MergeOrderMatters | app.py:66 | The voice order is fixed: two distinct clips of equal length merge differently in the two orders. |
| PyText.IsSpace | app.py:219-220 | Python's whitespace for `str.strip()` and `str.rstrip()`, listed by code point: the characters those calls remove. A definition; its consequences are stated by `Strip`, `RStrip` and `StripEmptyIff`. |
| PyText.TrimEnd | app.py:227 | The returned end is preceded by a non-whitespace character (or is 0), and only whitespace lies between it and the old end. |
| PyText.TrimStart | app.py:219-220 | The returned start is at a non-whitespace character (or at the end), and only whitespace lies before it. |
| PyText.RStrip | app.py:227 | `rstrip()` returns a prefix of its input that does not end in whitespace, and only whitespace was removed. |
| PyText.LStrip | app.py:219-220 | The front half of the `strip()` these lines call: a suffix of its input that does not start with whitespace, with only whitespace removed. `StripIsRStripOfLStrip` ties it to `Strip`. |
| PyText.Strip | app.py:219-220 | `strip()` returns a contiguous slice with no whitespace at either end. Only whitespace lies before and after the slice. |
| PyText.StripIsRStripOfLStrip | app.py:219-220 | `strip()` is `lstrip()` followed by `rstrip()`, so the cells are stripped at the front and at the back and nowhere else. |
| PyText.TrimEndUnique | app.py:219-220 | The end point of a right strip is determined: any position with no whitespace just before it and only whitespace after it is where `TrimEnd` stops. |
| PyText.RStripSuffix | app.py:219-220 | Right-stripping a suffix of a cell stops where right-stripping the whole cell stops, when that point lies inside the suffix. |
| PyText.StripFixed | app.py:219-220 | A string with no whitespace at either end is its own `strip()`. |
| PyText.RStripFixed | app.py:227 | A string that does not end in whitespace is its own `rstrip()`. |
| PyText.StripEmptyIff | app.py:219-222 | `strip()` is empty exactly when the cell is all whitespace. This is the emptiness test of the loop. |
| Sanitize.Allowed | app.py:227 | A character the cleaner keeps: `isalnum()`, a space, `-` or `_`. A definition; `Filter`, `FilterKeepsAllAllowed` and `FilterAllAllowed` state what keeping exactly these characters means. |
| Sanitize.Filter | app.py:227 | Every kept character is alphanumeric, space, `-` or `_`, and the result is no longer than the input. |
| Sanitize.FilterKeepsAllAllowed | app.py:227 | The filter gives an in-order subsequence of the name. It keeps each allowed character exactly as often as the name holds it, and nothing else. |
| Sanitize.SanitizeName | app.py:227 | The cleaned name holds only allowed characters and never ends in whitespace. It is an in-order subsequence of the stripped name. It equals the filtered name minus only trailing whitespace. |
| Sanitize.SanitizeIdempotent | app.py:227 | Cleaning a cleaned name returns it unchanged. |
| Sanitize.FilterAllAllowed | app.py:227 | A name made only of allowed characters passes the filter unchanged. |
| Sanitize.FilterAppend | app.py:227 | The filter decides each character on its own: filtering a concatenation concatenates the filtered parts. |
| Sanitize.SanitizeExample | app.py:227 | `"greet@#1!"` cleans to `"greet1"`. |
| Sanitize.PunctuationCleansToEmpty | app.py:227 | `"@#!"` cleans to the empty name. |
| Naming.AudioFileName | app.py:33 | The output file name is the base name followed by `.mp3`. |
| Naming.BaseName | app.py:87 | A file name has a base name exactly when it ends in `.mp3`, and renaming that base name gives back the file name. |
| Naming.BaseNameRoundTrip | app.py:69 | Taking the base name of `{name}.mp3` gives `name` back. |
| Naming.AudioFileNameInjective | app.py:69 | Distinct base names give distinct output files. |
| Naming.TempFileName | app.py:49-54 | The intermediate file of a voice is the base name followed by the 7-character suffix `_voice1` or `_voice2` and `.mp3`; the base name is its prefix. `TempFileNameIsAnOutput` shows it is also the output name of the row `{base}_voice1` or `{base}_voice2`. |
| Naming.TempFileNamesDistinct | app.py:49-54 | The two intermediate files of a conversion and its output file are three different files. |
| Naming.TempFileNameIsAnOutput | app.py:49-54 | The intermediate `{name}_voice1.mp3` is also the output file of a row named `{name}_voice1`, and likewise for `_voice2`. |
| Batch.IsBlankRow | app.py:222 | A row is blank when its name cell or its text cell is all whitespace, which is when one of them is empty once stripped. A definition; `Prepare`, `ProcessRow` and `SkippedExactlyWhenBlank` prove that these are the rows the loop skips. |
| Batch.Prepare | app.py:219-227 | A row is skipped exactly when its stripped name or stripped text is empty. Otherwise the text is the stripped, non-empty text, and the name is the cleaned stripped name. |
| Batch.ProcessRow | app.py:218-238 | A row is skipped exactly when it is blank. A processed row carries its cleaned name. It is converted exactly when the conversion of its stripped text succeeds, and it then carries that audio. It fails exactly when the conversion fails, and it then carries that error. |
| Batch.Outcomes | app.py:218-238 | One outcome per row. Its own ensures is only this length equation; the content, outcome `i` being row `i`'s processing, is `OutcomeOfRow`. |
| Batch.Collect | app.py:231-234 | No more entries than outcomes. Its own ensures is only this length bound; the content is `CollectMembers`, `CollectAppend` and `EntriesCount`. |
| Batch.AudioFiles | app.py:215-238 | No more entries in `audio_files` than rows. Its own ensures is only this length bound; the content is `CollectMembers`, `AudioFilesSnoc` and `FailedRowDoesNotAbort`. |
| Batch.CollectMembers | app.py:231-234 | The collected entries are exactly the converted rows, with their names and audio. |
| Batch.CollectAppend | app.py:218-238 | Each row contributes its own entry at its own place, whatever the other rows do. |
| Batch.OutcomesAppend | app.py:218 | The loop over two blocks of rows is the loop over the first block followed by the loop over the second. |
| Batch.FailedRowDoesNotAbort | app.py:236-238 | A skipped or failed row does not abort the batch: the entries are those of the rows before it followed by those of the rows after it. |
| Batch.AudioFilesSnoc | app.py:218-234 | Appending a row appends its entry, if it has one: `audio_files` is a left fold over the rows in order. |
| Batch.ArchiveNames | app.py:87 | The archive name of each collected file is its cleaned name plus `.mp3`, one name per file, and the cleaned name can be read back from it. It does not apply the existence test of app.py:86 (see "## Left out"). |
| Batch.Warnings | app.py:222-224 | Row number `k` (from 1) is warned about exactly when row `k` was skipped. |
| Batch.Errors | app.py:236-238 | Every failed row is reported with its name and the exception it raised. |
| Batch.ErrorsMembers | app.py:236-238 | Only failed rows are reported: a report is exactly a failed row's name and exception. |
| Batch.ErrorsAppend | app.py:218-238 | Each failed row is reported at its own place, in row order, whatever the other rows do. |
| Batch.RowsWhereCons | app.py:218 | The row numbers whose outcome has a given kind are the first row's number, if it has that kind, followed by the numbers from the rest. |
| Batch.WarningsCount | app.py:222-224 | There is exactly one warning per skipped row. |
| Batch.ErrorsCount | app.py:236-238 | There is exactly one error report per failed row. |
| Batch.EntriesCount | app.py:231-234 | There is exactly one entry of `audio_files` per converted row. |
| Batch.BlankRowsCount | app.py:218-224 | A batch with `K` blank rows draws exactly `K` warnings. |
| Batch.EveryRowAccountedFor | app.py:218-238 | Every row ends as exactly one of: an entry, a warning or an error. |
| Batch.OutcomeOfRow | app.py:218-238 | The outcome of row `i` is that row's own processing: rows are independent. |
| Batch.OutcomesAround | app.py:218 | The loop over all rows is the loop up to row `i`, then row `i`'s own processing, then the loop over the rest. |
| Batch.CollectDropsUnconverted | app.py:231-238 | An outcome that is not a conversion contributes no entry: the entries around it are joined unchanged. |
| Batch.SkippedExactlyWhenBlank | app.py:222-224 | Row `i` is skipped exactly when its name cell or its text cell is blank. |
| Batch.WarnedExactlyForBlankRows | app.py:222-224 | Row `k` is warned about exactly when its name cell or its text cell is blank. |
| Batch.PunctuationNameIsConverted | app.py:222-227 | The emptiness check comes before cleaning, so a row named `"@#!"` is converted under the empty name and archived as `.mp3`. |
| Batch.CleanNameUnchanged | app.py:219-227 | A name of allowed, non-whitespace characters survives stripping and cleaning unchanged. |
| Batch.SingleVoiceRowConverted | app.py:43-45 | In single-voice mode, a non-blank row whose request the service answers is converted to exactly the service's file. |
| Batch.CleanRowConverted | app.py:218-234 | A row with a clean name and an already-stripped text is converted under that name to the conversion's result. |
| Batch.OneSkippedBetweenTwo | app.py:218-238 | The outcomes converted, skipped, converted give two entries, one warning for row 2, and no error. |
| Batch.ConvertedSkippedConverted | app.py:218-238 | A batch whose rows are converted, skipped and converted collects the two converted rows under their names plus `.mp3`, with one warning and no error. These are the archive's names only when both output files still exist; with the dual-voice temporary files that can fail (`Staging.TempFilesLoseEntry`). |
| Staging.StagedDual | app.py:49-78 | As written, a dual-voice success leaves the merged file at `{name}.mp3` and deletes `{name}_voice1.mp3` and `{name}_voice2.mp3`. Its result equals the pure conversion's result. On failure `{name}.mp3` is as it was, present or absent with the same contents. No other file is removed, changed or added. |
| Staging.StagedFailureKeepsIntermediate | app.py:49-76 | When a later step fails after the first voice was saved, `{name}_voice1.mp3` stays in the directory. |
| Staging.ConvertInDir | app.py:30-78 | Whatever the staging, the returned path is `{name}.mp3` and it holds the conversion's result. The call fails exactly when the conversion fails, with the same error, and `{name}.mp3` is then as it was. No file other than the output and the two intermediates is removed, changed or added. With in-memory staging no file disappears. |
| Staging.RowInDir | app.py:218-234 | A row collects at most one `(path, name)` pair. The path is `{name}.mp3`, and it exists right after the row. |
| Staging.RowInDirMatchesProcessRow | app.py:231-234 | A row collects a pair exactly when the pure model converts it. The pair has the same name, and its file holds the converted audio. |
| Staging.RunInDir | app.py:218-238 | The loop collects at most one pair per row. With in-memory staging it never removes a file. |
| Staging.ZipEntries | app.py:84-87 | The archive has at most one entry per collected pair. When every collected path exists, it has exactly one per pair, named `{filename}.mp3` and holding that file. The missing-path case is stated by `ZipOne`, `ZipAppend` and `ZipMembers`. |
| Staging.ZipOne | app.py:85-87 | One collected pair gives the entry `{filename}.mp3` holding its file when its path exists, and no entry when it does not. |
| Staging.ZipAppend | app.py:85-87 | Each collected pair is kept or dropped on its own, and the entries keep the order of `audio_files`. |
| Staging.ZipMembers | app.py:85-87 | An archive entry is exactly a collected pair whose path still exists, named `{filename}.mp3` and holding that file. |
| Staging.RunCollectsBatch | app.py:218-238 | With either staging, the loop collects exactly the names of the pure model's `audio_files`, in order. |
| Staging.InMemoryCollectedExist | app.py:85-86 | With in-memory staging every collected path still exists when the archive is built. |
| Staging.InMemoryKeepsEveryEntry | app.py:84-87 | With in-memory staging the archive has exactly one entry per collected row, named `{filename}.mp3`. |
| Staging.StagedRowDeletesIntermediates | app.py:73-76 | As written, a converted dual-voice row leaves no file named after its two intermediates, whoever wrote those files. |
| Staging.RunOfTwo | app.py:218-234 | The loop over two rows runs the first row in the original directory and the second in the directory the first left behind, and collects their pairs in row order. |
| Staging.ZipSkipsMissing | app.py:85-86 | Of two collected pairs, one whose file is gone and one whose file exists, the archive holds exactly one entry. |
| Staging.TempFilesLoseEntry | app.py:49-51 | As written, in dual mode a row `{n}_voice1` followed by a row `{n}` gives two collected pairs but only one archive entry. |
| Staging.InMemoryKeepsBothEntries | app.py:84-87 | The same two rows with in-memory staging give two archive entries. |
| Staging.ExampleRowConverts | app.py:218-234 | With voices `A` and `B` and services that always succeed, the row `x` or `x_voice1` with text `hi` is converted under its own name to the encoded merge. |
| Staging.LostEntryExample | app.py:73-87 | Concrete instance: rows `x_voice1` and `x`, voices `A` and `B`, services that always succeed. As written, 2 pairs are collected but the archive has 1 entry; in memory it has 2. |

## Left out

- The Streamlit page is not modelled: layout, voice catalogue (app.py:14-28), preview and HTML player (app.py:92-103, 105-158), progress bar (app.py:241-242), status texts and the download button. They are presentation only.
- The `edge_tts` network call and `asyncio.run` (app.py:30-39) are the abstract `synthesize` function. Any exception is a `None`.
- pydub's decoder and encoder (`from_mp3`, `export`) are the abstract `decode` and `encode` functions. Sample rates, channels and frame alignment are not modelled. Audio is one sample per millisecond.
- Excel parsing with pandas is not modelled: `read_excel`, the `< 2` column check (app.py:195), the empty-sheet check (app.py:207), and the `str()` coercion that turns an empty cell into the non-empty `"nan"`. Rows arrive as pairs of strings, and row `k` is the `k`-th data row.
- Sanitize.SanitizeName: `str.isalnum` is a parameter instead of Python's Unicode tables.
- The ZIP format itself is not modelled: compression and the byte buffer. `create_zip_file` is `Staging.ZipEntries`, the sequence of `(entry name, contents)` pairs it writes, with the existence test of app.py:86. The page only builds the archive when something was collected (app.py:244); the model always computes the entry list.
- Batch.ArchiveNames: assumes every collected path still exists when the archive is built. That holds in single-voice mode and with in-memory staging; the existence test of app.py:86 is modelled by `Staging.ZipEntries`, which can drop an entry with the dual-voice temporary files.
- The lifetime of the temporary directory (`tempfile.TemporaryDirectory`) is not modelled. It starts as an arbitrary directory and is never cleaned up.
- A synthesis or export that fails part-way may leave a partial file. The model leaves the target file unchanged on failure (`KeepsFile` in the failure case of `Staging.StagedDual` and `Staging.ConvertInDir`).
- `text_to_speech_async_dual` deletes the intermediates only after a successful export (app.py:73-76). A failure before that leaves them in the directory, and the model follows the code (`Staging.StagedFailureKeepsIntermediate`).
- Staging's `Dir` compares file names exactly, as on a case-sensitive file system, and has no limit on name length. So rows `Intro` and `intro` are two files, and a long `{name}_voice1.mp3` never exceeds a path limit. A write that fails because of its path is outside the model, because `synthesize(text, voice)` does not see the file name. `Batch.ProcessRow`, `Batch.SingleVoiceRowConverted` and `Batch.CleanRowConverted` hold only under this abstraction.
- Two rows whose cleaned names are equal write the same output file, and the later one wins. The model has this behaviour (`ConvertInDir` overwrites), but no lemma is stated about it.

## Findings

| source | as written | input that shows it | evidently intended | confidence | as-written member | corrected member |
|---|---|---|---|---|---|---|
| app.py:49-56, app.py:73-76, app.py:86 | Dual-voice mode stages each voice as `{filename}_voice1.mp3` and `{filename}_voice2.mp3` in the same directory as the outputs, then deletes both. `create_zip_file` silently skips collected paths that no longer exist. | Voices `A` and `B`. Row 1 is named `x_voice1` and row 2 is named `x`, both with text `hi`, and every service call succeeds. Row 2's first intermediate is row 1's output, so that output is overwritten and then deleted. Both rows are counted as successes, but the archive holds only `x.mp3`. | Every row reported as converted appears in the archive. Staging must not touch other rows' outputs, for example by keeping the voices in memory or in a separate directory. | not executed | Staging.TempFilesLoseEntry | Staging.InMemoryKeepsEveryEntry |

=== FILE: audio.dfy ===
/** Sample-domain audio as the merge step sees it after decoding: a clip is
    a sequence of samples, one per millisecond. */
module Audio {
  import opened Base

  /** The pause inserted between the two voices, in milliseconds. */
  const GapMs: nat := 500

  /** A silent clip of `ms` milliseconds (`AudioSegment.silent`). */
  function Silence(ms: nat): (c: Clip)
    ensures |c| == ms
    ensures forall i :: 0 <= i < |c| ==> c[i] == 0
  {
    seq(ms, _ => 0)
  }

  /** `audio1 + silence + audio2`: the first clip, the gap, the second clip,
      each left sample-for-sample unchanged. */
  function Merge(first: Clip, second: Clip): (m: Clip)
    ensures |m| == |first| + GapMs + |second|
    ensures m[..|first|] == first
    ensures forall i :: |first| <= i < |first| + GapMs ==> m[i] == 0
    ensures m[|first| + GapMs..] == second
  {
    first + Silence(GapMs) + second
  }

  /** The two voice segments of a merged clip, given the length of the
      first one; the inverse of `Merge`. */
  function Split(m: Clip, firstLen: nat): (parts: (Clip, Clip))
    requires firstLen + GapMs <= |m|
    ensures |parts.0| == firstLen
    ensures |parts.0| + GapMs + |parts.1| == |m|
  {
    (m[..firstLen], m[firstLen + GapMs..])
  }

  /** The gap of `m` after `firstLen` samples is silent. */
  predicate SilentGap(m: Clip, firstLen: nat)
    requires firstLen + GapMs <= |m|
  {
    forall i :: firstLen <= i < firstLen + GapMs ==> m[i] == 0
  }

  /** Splitting a merged clip at the first clip's length recovers both
      clips, in their order, and finds silence between them. */
  lemma SplitMerge(first: Clip, second: Clip)
    ensures var m := Merge(first, second);
      && SilentGap(m, |first|)
      && Split(m, |first|) == (first, second)
  {
  }

  /** A clip whose gap is silent is the merge of its two parts: `Merge`
      and `Split` are mutually inverse. */
  lemma MergeSplit(m: Clip, firstLen: nat)
    requires firstLen + GapMs <= |m|
    requires SilentGap(m, firstLen)
    ensures Merge(Split(m, firstLen).0, Split(m, firstLen).1) == m
  {
    var (a, b) := Split(m, firstLen);
    var r := Merge(a, b);
    assert forall i :: 0 <= i < |m| ==> r[i] == m[i] by {
      forall i | 0 <= i < |m|
        ensures r[i] == m[i]
      {
        if i < firstLen {
          assert r[..firstLen][i] == r[i];
        } else if i >= firstLen + GapMs {
          assert r[firstLen + GapMs..][i - firstLen - GapMs] == r[i];
        }
      }
    }
  }

  /** The order of the voices is never swapped: merging distinct clips of
      equal length in the two orders gives different results. */
  lemma MergeOrderMatters(first: Clip, second: Clip)
    requires |first| == |second| && first != second
    ensures Merge(first, second) != Merge(second, first)
  {
    assert Merge(first, second)[..|first|] == first;
    assert Merge(second, first)[..|second|] == second;
  }
}

=== FILE: base.dfy ===
/** Shared vocabulary of the text-to-speech batch converter: optional values,
    the error taxonomy of a conversion, and the opaque values exchanged with
    the speech service and the audio codec. */
module Base {

  /** A value that may be absent (Python's `None`). */
  datatype Option<+T> = None | Some(value: T)

  /** Why a conversion failed. In the application every one of these is an
      exception caught by the row loop. */
  datatype Error =
    | SynthesisError(voice: Voice)   // the speech service call for this voice failed
    | DecodeError                    // a synthesized file could not be decoded as MP3
    | EncodeError                    // the merged clip could not be exported as MP3

  /** The outcome of an operation that may raise. Failure-compatible, so
      that `:-` propagates the first error like an exception would. */
  datatype Result<+T> = Ok(value: T) | Err(error: Error) {
    predicate IsFailure() {
      Err?
    }

    function PropagateFailure<U>(): Result<U>
      requires Err?
    {
      Err(error)
    }

    function Extract(): T
      requires Ok?
    {
      value
    }
  }

  /** A provider voice identifier such as "en-US-AriaNeural"; opaque. */
  type Voice = string

  newtype byte = x: int | 0 <= x < 256

  /** Encoded (MP3) file contents. */
  type Bytes = seq<byte>

  /** Decoded audio: one sample per millisecond, so that a clip's length is
      its duration in milliseconds. Silence is the sample 0. */
  type Clip = seq<int>

  /** Lifts a possibly-failing service answer into a `Result`. */
  function OrFail<T>(o: Option<T>, e: Error): (r: Result<T>)
    ensures r.Ok? <==> o.Some?
    ensures r.Ok? ==> r.value == o.value
    ensures r.Err? ==> r.error == e
  {
    match o
    case Some(v) => Ok(v)
    case None => Err(e)
  }
}

=== FILE: batch.dfy ===
/** The row loop of the batch conversion and the naming of the archive
    entries. Each spreadsheet row is already a pair of strings. */
module Batch {
  import opened Base
  import opened PyText
  import opened Sanitize
  import opened Synthesis
  import opened Naming

  /** One spreadsheet row: the file-name cell and the text cell, as strings. */
  datatype Row = Row(nameCell: string, textCell: string)

  /** What the page fixes for a whole batch: the collaborators, the chosen
      voices, and the character class `str.isalnum` tests. */
  datatype Settings = Settings(
    services: Services,
    voice1: Voice,
    voice2: Option<Voice>,
    isAlnum: char -> bool)

  /** A row that passed the emptiness check: cleaned name and stripped text. */
  datatype Job = Job(name: string, text: string)

  /** What happened to one row. */
  datatype RowOutcome =
    | Skipped                              // empty name or text: a warning
    | Failed(name: string, error: Error)   // conversion raised: an error message
    | Converted(name: string, audio: Bytes)

  /** An error message of the loop: the row's cleaned name and the
      exception it raised. */
  datatype Report = Report(name: string, error: Error)

  /** An element of `audio_files`: a converted row's cleaned name and the
      contents of its output file. */
  datatype Entry = Entry(name: string, audio: Bytes)

  /** A row the loop skips: its name or its text is empty once stripped. */
  predicate IsBlankRow(row: Row) {
    AllSpace(row.nameCell) || AllSpace(row.textCell)
  }

  /** Strip both cells, skip the row when either is empty, then clean the
      name. The emptiness check comes before cleaning. */
  function Prepare(row: Row, isAlnum: char -> bool): (j: Option<Job>)
    ensures j.None? <==> IsBlankRow(row)
    ensures j.Some? ==> j.value.text != [] && j.value.text == Strip(row.textCell)
    ensures j.Some? ==> j.value.name == SanitizeName(Strip(row.nameCell), isAlnum)
  {
    StripEmptyIff(row.nameCell);
    StripEmptyIff(row.textCell);
    var name := Strip(row.nameCell);
    var text := Strip(row.textCell);
    if name == [] || text == [] then None
    else Some(Job(SanitizeName(name, isAlnum), text))
  }

  /** One iteration of the row loop. */
  function ProcessRow(cfg: Settings, row: Row): (o: RowOutcome)
    ensures o.Skipped? <==> IsBlankRow(row)
    ensures !o.Skipped? ==> o.name == SanitizeName(Strip(row.nameCell), cfg.isAlnum)
    ensures o.Converted? ==> Convert(cfg.services, Strip(row.textCell), cfg.voice1, cfg.voice2) == Ok(o.audio)
    ensures o.Failed? ==> Convert(cfg.services, Strip(row.textCell), cfg.voice1, cfg.voice2) == Err(o.error)
  {
    match Prepare(row, cfg.isAlnum)
    case None => Skipped
    case Some(job) =>
      match Convert(cfg.services, job.text, cfg.voice1, cfg.voice2)
      case Ok(audio) => Converted(job.name, audio)
      case Err(e) => Failed(job.name, e)
  }

  /** The outcome of every row, in row order. */
  function Outcomes(cfg: Settings, rows: seq<Row>): (os: seq<RowOutcome>)
    ensures |os| == |rows|
  {
    if rows == [] then [] else [ProcessRow(cfg, rows[0])] + Outcomes(cfg, rows[1..])
  }

  /** The entries `audio_files` collects: the converted rows, in order;
      skipped and failed rows contribute nothing. */
  function Collect(os: seq<RowOutcome>): (files: seq<Entry>)
    ensures |files| <= |os|
  {
    if os == [] then [] else Contribution(os[0]) + Collect(os[1..])
  }

  /** The entries are exactly the converted rows: every entry comes from a
      converted row, and every converted row has its entry. */
  lemma {:induction false} CollectMembers(os: seq<RowOutcome>)
    ensures forall e :: e in Collect(os) <==> Converted(e.name, e.audio) in os
  {
    if os != [] {
      CollectMembers(os[1..]);
      assert os == [os[0]] + os[1..];
    }
  }

  /** The entry a row outcome adds to `audio_files`, if any. */
  function Contribution(o: RowOutcome): seq<Entry> {
    if o.Converted? then [Entry(o.name, o.audio)] else []
  }

  /** `audio_files` after the loop. */
  function AudioFiles(cfg: Settings, rows: seq<Row>): (files: seq<Entry>)
    ensures |files| <= |rows|
  {
    Collect(Outcomes(cfg, rows))
  }

  /** The archive entry names `create_zip_file` gives the collected files,
      in order, when every collected path still exists; the existence test
      itself is `Staging.ZipEntries`. */
  function ArchiveNames(files: seq<Entry>): (names: seq<string>)
    ensures |names| == |files|
    ensures forall i :: 0 <= i < |files| ==> BaseName(names[i]) == Some(files[i].name)
  {
    if files == [] then []
    else
      BaseNameRoundTrip(files[0].name);
      [AudioFileName(files[0].name)] + ArchiveNames(files[1..])
  }

  /** Collecting distributes over concatenation: each row contributes its
      own entry, at its own place, whatever the rows around it do. */
  lemma {:induction false} CollectAppend(a: seq<RowOutcome>, b: seq<RowOutcome>)
    ensures Collect(a + b) == Collect(a) + Collect(b)
  {
    if a == [] {
      assert a + b == b;
    } else {
      assert (a + b)[0] == a[0];
      assert (a + b)[1..] == a[1..] + b;
      CollectAppend(a[1..], b);
    }
  }

  /** Processing two blocks of rows is processing the first block, then
      the second. */
  lemma {:induction false} OutcomesAppend(cfg: Settings, a: seq<Row>, b: seq<Row>)
    ensures Outcomes(cfg, a + b) == Outcomes(cfg, a) + Outcomes(cfg, b)
  {
    if a == [] {
      assert a + b == b;
    } else {
      assert (a + b)[0] == a[0];
      assert (a + b)[1..] == a[1..] + b;
      OutcomesAppend(cfg, a[1..], b);
    }
  }

  /** A row's outcome sits between the outcomes of the rows before it and
      those of the rows after it. */
  lemma OutcomesAround(cfg: Settings, rows: seq<Row>, i: nat)
    requires i < |rows|
    ensures Outcomes(cfg, rows) == Outcomes(cfg, rows[..i]) + [ProcessRow(cfg, rows[i])] + Outcomes(cfg, rows[i + 1..])
  {
    assert rows == rows[..i] + [rows[i]] + rows[i + 1..];
    OutcomesAppend(cfg, rows[..i] + [rows[i]], rows[i + 1..]);
    OutcomesAppend(cfg, rows[..i], [rows[i]]);
  }

  /** An outcome that is not a conversion contributes no entry. */
  lemma CollectDropsUnconverted(a: seq<RowOutcome>, o: RowOutcome, b: seq<RowOutcome>)
    requires !o.Converted?
    ensures Collect(a + [o] + b) == Collect(a) + Collect(b)
  {
    var single := [o];
    assert single[1..] == [];
    assert Collect(single) == [];
    CollectAppend(a, single);
    CollectAppend(a + single, b);
  }

  /** A row that is skipped or fails does not abort the batch: the entries
      are those of the rows before it followed by those of the rows after it. */
  lemma FailedRowDoesNotAbort(cfg: Settings, rows: seq<Row>, i: nat)
    requires i < |rows|
    requires !ProcessRow(cfg, rows[i]).Converted?
    ensures AudioFiles(cfg, rows) == AudioFiles(cfg, rows[..i]) + AudioFiles(cfg, rows[i + 1..])
  {
    OutcomesAround(cfg, rows, i);
    CollectDropsUnconverted(Outcomes(cfg, rows[..i]), ProcessRow(cfg, rows[i]), Outcomes(cfg, rows[i + 1..]));
  }

  /** Appending a row appends its entry, if it has one: the batch is a
      left fold of `ProcessRow` over the rows. */
  lemma AudioFilesSnoc(cfg: Settings, rows: seq<Row>, row: Row)
    ensures AudioFiles(cfg, rows + [row]) == AudioFiles(cfg, rows) + Contribution(ProcessRow(cfg, row))
  {
    OutcomesAppend(cfg, rows, [row]);
    CollectAppend(Outcomes(cfg, rows), Outcomes(cfg, [row]));
  }

  /** The row numbers the loop warns about (`index + 1`, the rows it skips),
      in order; `first` is the number of the first row of `os`. */
  function Warnings(os: seq<RowOutcome>, first: nat): (ks: seq<nat>)
    ensures |ks| <= |os|
    ensures forall k :: k in ks <==> first <= k < first + |os| && os[k - first].Skipped?
  {
    if os == [] then []
    else
      var rest := Warnings(os[1..], first + 1);
      (if os[0].Skipped? then [first] else []) + rest
  }

  /** The error messages the loop reports (the rows whose conversion
      raised), in order: the cleaned name and the exception, which
      `str(e)` turns into the message text. */
  function Errors(os: seq<RowOutcome>): (reports: seq<Report>)
    ensures |reports| <= |os|
    ensures forall o :: o in os && o.Failed? ==> Report(o.name, o.error) in reports
  {
    if os == [] then []
    else
      assert os == [os[0]] + os[1..];
      (if os[0].Failed? then [Report(os[0].name, os[0].error)] else []) + Errors(os[1..])
  }

  /** Only failed rows are reported: a report is exactly a failed row's
      name and exception. */
  lemma {:induction false} ErrorsMembers(os: seq<RowOutcome>)
    ensures forall r :: r in Errors(os) <==> Failed(r.name, r.error) in os
  {
    if os != [] {
      ErrorsMembers(os[1..]);
      assert os == [os[0]] + os[1..];
    }
  }

  /** Reporting distributes over concatenation: each failed row is
      reported at its own place, in row order. */
  lemma {:induction false} ErrorsAppend(a: seq<RowOutcome>, b: seq<RowOutcome>)
    ensures Errors(a + b) == Errors(a) + Errors(b)
  {
    if a == [] {
      assert a + b == b;
    } else {
      assert (a + b)[0] == a[0];
      assert (a + b)[1..] == a[1..] + b;
      ErrorsAppend(a[1..], b);
    }
  }

  predicate IsSkipped(o: RowOutcome) { o.Skipped? }
  predicate IsFailed(o: RowOutcome) { o.Failed? }
  predicate IsConverted(o: RowOutcome) { o.Converted? }

  /** The numbers of the rows whose outcome satisfies `p`, the first row
      being number `first`. */
  function RowsWhere(os: seq<RowOutcome>, first: nat, p: RowOutcome -> bool): set<nat> {
    set i: nat | i < |os| && p(os[i]) :: first + i
  }

  /** Peeling off the first row: it is counted at most once, and apart
      from the rows after it. */
  lemma RowsWhereCons(os: seq<RowOutcome>, first: nat, p: RowOutcome -> bool)
    requires os != []
    ensures RowsWhere(os, first, p) == (if p(os[0]) then {first} else {}) + RowsWhere(os[1..], first + 1, p)
    ensures first !in RowsWhere(os[1..], first + 1, p)
  {
    var all := RowsWhere(os, first, p);
    var head: set<nat> := if p(os[0]) then {first} else {};
    var rest := RowsWhere(os[1..], first + 1, p);
    forall k: nat | k in rest
      ensures k in all && k != first
    {
      var i: nat :| i < |os[1..]| && p(os[1..][i]) && k == first + 1 + i;
      assert os[1..][i] == os[i + 1];
    }
    forall k: nat | k in all
      ensures k in head + rest
    {
      var i: nat :| i < |os| && p(os[i]) && k == first + i;
      if i > 0 {
        assert os[1..][i - 1] == os[i];
      }
    }
    if p(os[0]) {
      assert first + 0 in all;
    }
  }

  /** Peeling off the first row adds one to the count exactly when that
      row satisfies `p`. */
  lemma RowsWhereCard(os: seq<RowOutcome>, first: nat, p: RowOutcome -> bool)
    requires os != []
    ensures |RowsWhere(os, first, p)| == (if p(os[0]) then 1 else 0) + |RowsWhere(os[1..], first + 1, p)|
  {
    RowsWhereCons(os, first, p);
  }

  /** One warning per skipped row. */
  lemma {:induction false} WarningsCount(os: seq<RowOutcome>, first: nat)
    ensures |Warnings(os, first)| == |RowsWhere(os, first, IsSkipped)|
  {
    if os == [] {
      assert RowsWhere(os, first, IsSkipped) == {};
    } else {
      WarningsCount(os[1..], first + 1);
      RowsWhereCard(os, first, IsSkipped);
    }
  }

  /** One error per failed row. */
  lemma {:induction false} ErrorsCount(os: seq<RowOutcome>, first: nat)
    ensures |Errors(os)| == |RowsWhere(os, first, IsFailed)|
  {
    if os == [] {
      assert RowsWhere(os, first, IsFailed) == {};
    } else {
      ErrorsCount(os[1..], first + 1);
      RowsWhereCard(os, first, IsFailed);
    }
  }

  /** One entry per converted row. */
  lemma {:induction false} EntriesCount(os: seq<RowOutcome>, first: nat)
    ensures |Collect(os)| == |RowsWhere(os, first, IsConverted)|
  {
    if os == [] {
      assert RowsWhere(os, first, IsConverted) == {};
    } else {
      EntriesCount(os[1..], first + 1);
      RowsWhereCard(os, first, IsConverted);
    }
  }

  /** A batch with `K` blank rows draws exactly `K` warnings. */
  lemma BlankRowsCount(cfg: Settings, rows: seq<Row>)
    ensures |Warnings(Outcomes(cfg, rows), 1)| == |set i: nat | i < |rows| && IsBlankRow(rows[i]) :: i + 1|
  {
    var os := Outcomes(cfg, rows);
    WarningsCount(os, 1);
    var blank := set i: nat | i < |rows| && IsBlankRow(rows[i]) :: i + 1;
    forall i: nat | i < |rows|
      ensures os[i].Skipped? <==> IsBlankRow(rows[i])
    {
      SkippedExactlyWhenBlank(cfg, rows, i);
    }
    assert RowsWhere(os, 1, IsSkipped) == blank;
  }

  /** Every row is accounted for exactly once: as an entry, a warning or
      an error. */
  lemma {:induction false} EveryRowAccountedFor(os: seq<RowOutcome>, first: nat)
    ensures |Collect(os)| + |Warnings(os, first)| + |Errors(os)| == |os|
  {
    if os != [] {
      EveryRowAccountedFor(os[1..], first + 1);
    }
  }

  /** The outcome of row `i` is that row's own processing: rows are
      independent of one another. */
  lemma {:induction false} OutcomeOfRow(cfg: Settings, rows: seq<Row>, i: nat)
    requires i < |rows|
    ensures Outcomes(cfg, rows)[i] == ProcessRow(cfg, rows[i])
  {
    if i > 0 {
      OutcomeOfRow(cfg, rows[1..], i - 1);
    }
  }

  /** Row `k` (counting from 1) draws a warning exactly when its name or its
      text is blank; no other row does. */
  lemma WarnedExactlyForBlankRows(cfg: Settings, rows: seq<Row>, k: nat)
    ensures k in Warnings(Outcomes(cfg, rows), 1) <==> 1 <= k <= |rows| && IsBlankRow(rows[k - 1])
  {
    var os := Outcomes(cfg, rows);
    if 1 <= k <= |rows| {
      SkippedExactlyWhenBlank(cfg, rows, k - 1);
      assert k in Warnings(os, 1) <==> os[k - 1].Skipped?;
    } else {
      assert k !in Warnings(os, 1);
    }
  }

  /** Row `i` is skipped exactly when it is blank. */
  lemma SkippedExactlyWhenBlank(cfg: Settings, rows: seq<Row>, i: nat)
    requires i < |rows|
    ensures Outcomes(cfg, rows)[i].Skipped? <==> IsBlankRow(rows[i])
  {
    OutcomeOfRow(cfg, rows, i);
  }

  /** Names that become empty after cleaning are not skipped: the emptiness
      check precedes cleaning, so `"@#!"` is converted under the name "". */
  lemma PunctuationNameIsConverted(cfg: Settings, text: string)
    requires cfg.isAlnum == AsciiAlnum
    requires !AllSpace(text)
    requires Convert(cfg.services, Strip(text), cfg.voice1, cfg.voice2).Ok?
    ensures ProcessRow(cfg, Row("@#!", text)).Converted?
    ensures ProcessRow(cfg, Row("@#!", text)).name == ""
    ensures ArchiveNames([Entry("", ProcessRow(cfg, Row("@#!", text)).audio)]) == [".mp3"]
  {
    assert !IsSpace('@');
    assert "@#!"[0] == '@';
    assert Strip("@#!") == "@#!" by {
      assert !IsSpace("@#!"[2]);
      assert LStrip("@#!") == "@#!";
      RStripFixed("@#!");
    }
    PunctuationCleansToEmpty();
  }

  /** A name made of characters the cleaner keeps, none of them
      whitespace, survives stripping and cleaning unchanged. */
  lemma CleanNameUnchanged(cell: string, isAlnum: char -> bool)
    requires |cell| > 0
    requires forall i :: 0 <= i < |cell| ==> Allowed(cell[i], isAlnum) && !IsSpace(cell[i])
    ensures Strip(cell) == cell
    ensures SanitizeName(cell, isAlnum) == cell
  {
    StripFixed(cell);
    FilterAllAllowed(cell, isAlnum);
    RStripFixed(cell);
  }

  /** In single-voice mode a row with a name and a text whose request the
      service answers is converted to exactly the service's file. */
  lemma SingleVoiceRowConverted(cfg: Settings, row: Row)
    requires cfg.voice2.None? || cfg.voice2.value == cfg.voice1
    requires !IsBlankRow(row)
    requires cfg.services.synthesize(Strip(row.textCell), cfg.voice1).Some?
    ensures ProcessRow(cfg, row)
         == Converted(SanitizeName(Strip(row.nameCell), cfg.isAlnum),
                      cfg.services.synthesize(Strip(row.textCell), cfg.voice1).value)
  {
  }

  /** The bookkeeping of a converted, a skipped and a converted row: two
      archive entries, one warning for row 2, no error. */
  lemma OneSkippedBetweenTwo(n1: string, a: Bytes, n2: string, b: Bytes)
    ensures var os := [Converted(n1, a), Skipped, Converted(n2, b)];
      && ArchiveNames(Collect(os)) == [AudioFileName(n1), AudioFileName(n2)]
      && Warnings(os, 1) == [2]
      && Errors(os) == []
  {
    var os := [Converted(n1, a), Skipped, Converted(n2, b)];
    assert os[1..] == [Skipped, Converted(n2, b)];
    assert os[1..][1..] == [Converted(n2, b)];
    assert os[1..][1..][1..] == [];
    assert Warnings(os[1..][1..], 3) == [];
    assert Warnings(os[1..], 2) == [2];
    assert Errors(os[1..][1..]) == [];
    assert Errors(os[1..]) == [];
    var files := [Entry(n1, a), Entry(n2, b)];
    assert Collect(os[1..][1..]) == [Entry(n2, b)];
    assert Collect(os) == files;
    assert files[1..] == [Entry(n2, b)];
  }

  /** A row whose name the cleaner keeps whole and whose text has no
      surrounding whitespace is converted under that name, to the result of
      converting that text. */
  lemma CleanRowConverted(cfg: Settings, name: string, text: string)
    requires |name| > 0 && forall i :: 0 <= i < |name| ==> Allowed(name[i], cfg.isAlnum) && !IsSpace(name[i])
    requires |text| > 0 && !IsSpace(text[0]) && !IsSpace(text[|text| - 1])
    requires Convert(cfg.services, text, cfg.voice1, cfg.voice2).Ok?
    ensures ProcessRow(cfg, Row(name, text)) == Converted(name, Convert(cfg.services, text, cfg.voice1, cfg.voice2).value)
  {
    CleanNameUnchanged(name, cfg.isAlnum);
    StripFixed(text);
    assert !IsSpace(name[0]) && !IsSpace(text[0]);
  }

  /** A batch whose rows are converted, skipped and converted collects
      two files whose archive names come from the converted rows, draws one
      warning for row 2, and reports no error. */
  lemma ConvertedSkippedConverted(cfg: Settings, rows: seq<Row>, n1: string, a: Bytes, n2: string, b: Bytes)
    requires Outcomes(cfg, rows) == [Converted(n1, a), Skipped, Converted(n2, b)]
    ensures ArchiveNames(AudioFiles(cfg, rows)) == [AudioFileName(n1), AudioFileName(n2)]
    ensures Warnings(Outcomes(cfg, rows), 1) == [2]
    ensures Errors(Outcomes(cfg, rows)) == []
  {
    OneSkippedBetweenTwo(n1, a, n2, b);
  }
}

=== FILE: naming.dfy ===
/** File names inside the conversion's temporary directory and inside the
    archive. All files of one batch live in one directory, so a file name
    stands for its path. */
module Naming {
  import opened Base

  const Extension: string := ".mp3"

  /** `f"{name}.mp3"`: the output file of a conversion, and also the name of
      the archive entry that holds it. */
  function AudioFileName(base: string): (f: string)
    ensures |f| == |base| + |Extension|
    ensures f[..|base|] == base && f[|base|..] == Extension
  {
    base + Extension
  }

  /** The base name of an audio file name, or `None` when it does not end
      in the extension. */
  function BaseName(f: string): (b: Option<string>)
    ensures b.Some? <==> |f| >= |Extension| && f[|f| - |Extension|..] == Extension
    ensures b.Some? ==> AudioFileName(b.value) == f
  {
    if |f| >= |Extension| && f[|f| - |Extension|..] == Extension then
      var base := f[..|f| - |Extension|];
      assert base + Extension == f;
      Some(base)
    else None
  }

  /** Naming a file after its base name loses nothing. */
  lemma BaseNameRoundTrip(base: string)
    ensures BaseName(AudioFileName(base)) == Some(base)
  {
    var f := AudioFileName(base);
    assert f[|f| - |Extension|..] == Extension;
    assert f[..|f| - |Extension|] == base;
  }

  /** Distinct base names give distinct file names. */
  lemma AudioFileNameInjective(a: string, b: string)
    requires AudioFileName(a) == AudioFileName(b)
    ensures a == b
  {
    BaseNameRoundTrip(a);
    BaseNameRoundTrip(b);
  }

  /** Which voice an intermediate file of a dual-voice conversion holds. */
  datatype Slot = Voice1 | Voice2

  /** `f"{name}_voice1.mp3"` and `f"{name}_voice2.mp3"`. */
  function TempFileName(base: string, slot: Slot): (f: string)
    ensures |f| == |base| + 7 + |Extension|
    ensures f[..|base|] == base
  {
    base + (if slot.Voice1? then "_voice1" else "_voice2") + Extension
  }

  /** Within one conversion the two intermediate files and the output file
      are three different files. */
  lemma TempFileNamesDistinct(base: string)
    ensures TempFileName(base, Voice1) != TempFileName(base, Voice2)
    ensures TempFileName(base, Voice1) != AudioFileName(base)
    ensures TempFileName(base, Voice2) != AudioFileName(base)
  {
    assert TempFileName(base, Voice1)[|base| + 6] == '1';
    assert TempFileName(base, Voice2)[|base| + 6] == '2';
  }

  /** An intermediate file of one conversion is the output file of another
      row, the one whose name carries the `_voice1`/`_voice2` suffix. */
  lemma TempFileNameIsAnOutput(base: string, slot: Slot)
    ensures TempFileName(base, slot)
         == AudioFileName(base + (if slot.Voice1? then "_voice1" else "_voice2"))
  {
  }
}

=== FILE: pytext.dfy ===
/** Python's `str.isspace`, `str.strip()` and `str.rstrip()` (the forms
    without arguments), as used on spreadsheet cells and file names. */
module PyText {

  /** Python's whitespace: the characters for which `str.isspace` holds,
      listed by code point (bidirectional class WS, B or S, or category Zs). */
  predicate IsSpace(c: char) {
    var n := c as int;
    || (0x09 <= n <= 0x0D)
    || (0x1C <= n <= 0x20)
    || n == 0x85 || n == 0xA0 || n == 0x1680
    || (0x2000 <= n <= 0x200A)
    || n == 0x2028 || n == 0x2029 || n == 0x202F || n == 0x205F || n == 0x3000
  }

  /** Every character of `s` is whitespace. */
  predicate AllSpace(s: string) {
    forall i :: 0 <= i < |s| ==> IsSpace(s[i])
  }

  /** The end of `s[..end]` once its trailing whitespace is removed. */
  function TrimEnd(s: string, end: nat): (k: nat)
    requires end <= |s|
    ensures k <= end
    ensures k == 0 || !IsSpace(s[k - 1])
    ensures forall i :: k <= i < end ==> IsSpace(s[i])
    decreases end
  {
    if end > 0 && IsSpace(s[end - 1]) then TrimEnd(s, end - 1) else end
  }

  /** The start of `s[start..]` once its leading whitespace is removed. */
  function TrimStart(s: string, start: nat): (k: nat)
    requires start <= |s|
    ensures start <= k <= |s|
    ensures k == |s| || !IsSpace(s[k])
    ensures forall i :: start <= i < k ==> IsSpace(s[i])
    decreases |s| - start
  {
    if start < |s| && IsSpace(s[start]) then TrimStart(s, start + 1) else start
  }

  /** `s.rstrip()`: the longest prefix of `s` that does not end in whitespace,
      such that only whitespace was removed. */
  function RStrip(s: string): (r: string)
    ensures |r| <= |s| && r == s[..|r|]
    ensures r == [] || !IsSpace(r[|r| - 1])
    ensures AllSpace(s[|r|..])
  {
    s[..TrimEnd(s, |s|)]
  }

  /** `s.lstrip()`: the longest suffix of `s` that does not start with
      whitespace, such that only whitespace was removed. */
  function LStrip(s: string): (r: string)
    ensures |r| <= |s| && r == s[|s| - |r|..]
    ensures r == [] || !IsSpace(r[0])
    ensures AllSpace(s[..|s| - |r|])
  {
    s[TrimStart(s, 0)..]
  }

  /** `s.strip()`: a contiguous slice of `s` with whitespace removed from
      both ends and nothing else removed. */
  function Strip(s: string): (r: string)
    ensures var a := TrimStart(s, 0);
      && a + |r| <= |s|
      && r == s[a..a + |r|]
      && AllSpace(s[..a]) && AllSpace(s[a + |r|..])
    ensures r == [] || (!IsSpace(r[0]) && !IsSpace(r[|r| - 1]))
  {
    var a := TrimStart(s, 0);
    var b := TrimEnd(s, |s|);
    if a < b then
      assert AllSpace(s[..a]) && AllSpace(s[b..]);
      s[a..b]
    else
      assert AllSpace(s[a..]);
      []
  }

  /** A string that does not end in whitespace is its own `rstrip()`. */
  lemma RStripFixed(s: string)
    requires s == [] || !IsSpace(s[|s| - 1])
    ensures RStrip(s) == s
  {
  }

  /** A string that neither starts nor ends in whitespace is its own
      `strip()`. */
  lemma StripFixed(s: string)
    requires s == [] || (!IsSpace(s[0]) && !IsSpace(s[|s| - 1]))
    ensures Strip(s) == s
  {
    assert s[0..|s|] == s;
  }

  /** `TrimEnd` is determined by its contract: any end point with no
      whitespace before it and only whitespace after it is the one it finds. */
  lemma {:induction false} TrimEndUnique(s: string, end: nat, k: nat)
    requires k <= end <= |s|
    requires k == 0 || !IsSpace(s[k - 1])
    requires forall i :: k <= i < end ==> IsSpace(s[i])
    ensures TrimEnd(s, end) == k
    decreases end
  {
    if end > k {
      TrimEndUnique(s, end - 1, k);
    }
  }

  /** Right-stripping a suffix `s[a..]` of `s` stops at the same place as
      right-stripping `s`, when that place lies inside the suffix. */
  lemma RStripSuffix(s: string, a: nat, b: nat)
    requires a < b <= |s|
    requires !IsSpace(s[b - 1])
    requires forall i :: b <= i < |s| ==> IsSpace(s[i])
    ensures RStrip(s[a..]) == s[a..b]
  {
    var l := s[a..];
    forall i | b - a <= i < |l|
      ensures IsSpace(l[i])
    {
      assert l[i] == s[a + i];
    }
    assert l[b - a - 1] == s[b - 1];
    TrimEndUnique(l, |l|, b - a);
    assert l[..b - a] == s[a..b];
  }

  /** `s.strip()` is `s.lstrip().rstrip()`: stripping both ends is stripping
      the front, then the back. */
  lemma StripIsRStripOfLStrip(s: string)
    ensures Strip(s) == RStrip(LStrip(s))
  {
    var a := TrimStart(s, 0);
    var b := TrimEnd(s, |s|);
    if a < b {
      RStripSuffix(s, a, b);
    }
  }

  /** `s.strip()` is empty exactly when `s` is all whitespace; this is the
      test the row loop applies to every cell. */
  lemma StripEmptyIff(s: string)
    ensures Strip(s) == [] <==> AllSpace(s)
  {
    var a := TrimStart(s, 0);
    var b := TrimEnd(s, |s|);
    if a < b {
      assert !IsSpace(s[a]);
    }
  }
}

=== FILE: sanitize.dfy ===
/** The file-name cleaner of the row loop: keep alphanumeric characters,
    space, `-` and `_`, then `rstrip()` the result.

    Python's `str.isalnum` is Unicode-aware; it is a parameter here
    (`isAlnum`), and `AsciiAlnum` is the ASCII instance used by the examples. */
module Sanitize {
  import opened PyText

  /** The characters the cleaner keeps. */
  predicate Allowed(c: char, isAlnum: char -> bool) {
    isAlnum(c) || c == ' ' || c == '-' || c == '_'
  }

  /** ASCII letters and digits: `str.isalnum` restricted to ASCII. */
  predicate AsciiAlnum(c: char) {
    ('a' <= c <= 'z') || ('A' <= c <= 'Z') || ('0' <= c <= '9')
  }

  /** `a` is an in-order (not necessarily contiguous) subsequence of `b`. */
  predicate IsSubsequence<T(==)>(a: seq<T>, b: seq<T>)
    decreases |b|
  {
    if a == [] then true
    else if b == [] then false
    else if a[0] == b[0] then IsSubsequence(a[1..], b[1..])
    else IsSubsequence(a, b[1..])
  }

  /** The number of allowed characters of `s`. */
  function CountAllowed(s: string, isAlnum: char -> bool): nat {
    if s == [] then 0
    else (if Allowed(s[0], isAlnum) then 1 else 0) + CountAllowed(s[1..], isAlnum)
  }

  /** The generator expression of the cleaner, joined: the allowed
      characters of `s`, in their order. */
  function Filter(s: string, isAlnum: char -> bool): (r: string)
    ensures forall i :: 0 <= i < |r| ==> Allowed(r[i], isAlnum)
    ensures |r| <= |s|
  {
    if s == [] then []
    else if Allowed(s[0], isAlnum) then [s[0]] + Filter(s[1..], isAlnum)
    else Filter(s[1..], isAlnum)
  }

  /** The filter keeps its characters in order and drops nothing else:
      it yields an in-order subsequence that holds every allowed character
      of the input exactly as often as the input does, and no other. */
  lemma {:induction false} FilterKeepsAllAllowed(s: string, isAlnum: char -> bool)
    ensures IsSubsequence(Filter(s, isAlnum), s)
    ensures |Filter(s, isAlnum)| == CountAllowed(s, isAlnum)
    ensures forall c :: Allowed(c, isAlnum) ==> multiset(Filter(s, isAlnum))[c] == multiset(s)[c]
  {
    if s != [] {
      FilterKeepsAllAllowed(s[1..], isAlnum);
      assert s == [s[0]] + s[1..];
      var rest := Filter(s[1..], isAlnum);
      if Allowed(s[0], isAlnum) {
        assert ([s[0]] + rest)[1..] == rest;
      } else {
        SubsequenceSkip(rest, s);
      }
    }
  }

  /** The whole cleaner: `"".join(c for c in name if ...).rstrip()`. */
  function SanitizeName(name: string, isAlnum: char -> bool): (r: string)
    ensures forall i :: 0 <= i < |r| ==> Allowed(r[i], isAlnum)
    ensures r == [] || !IsSpace(r[|r| - 1])
    ensures IsSubsequence(r, name)
    ensures var kept := Filter(name, isAlnum); |r| <= |kept| && r == kept[..|r|] && AllSpace(kept[|r|..])
  {
    var kept := Filter(name, isAlnum);
    var r := RStrip(kept);
    FilterKeepsAllAllowed(name, isAlnum);
    PrefixIsSubsequence(r, kept);
    SubsequenceTransitive(r, kept, name);
    r
  }

  /** Filtering a string whose characters are all allowed changes nothing. */
  lemma {:induction false} FilterAllAllowed(s: string, isAlnum: char -> bool)
    requires forall i :: 0 <= i < |s| ==> Allowed(s[i], isAlnum)
    ensures Filter(s, isAlnum) == s
  {
    if s != [] {
      FilterAllAllowed(s[1..], isAlnum);
    }
  }

  /** Cleaning an already-cleaned name returns it unchanged. */
  lemma SanitizeIdempotent(name: string, isAlnum: char -> bool)
    ensures SanitizeName(SanitizeName(name, isAlnum), isAlnum) == SanitizeName(name, isAlnum)
  {
    var r := SanitizeName(name, isAlnum);
    FilterAllAllowed(r, isAlnum);
    RStripFixed(r);
  }

  /** Filtering distributes over concatenation: the cleaner decides each
      character on its own, independently of its neighbours. */
  lemma {:induction false} FilterAppend(a: string, b: string, isAlnum: char -> bool)
    ensures Filter(a + b, isAlnum) == Filter(a, isAlnum) + Filter(b, isAlnum)
  {
    if a != [] {
      assert (a + b)[0] == a[0];
      assert (a + b)[1..] == a[1..] + b;
      FilterAppend(a[1..], b, isAlnum);
      if Allowed(a[0], isAlnum) {
        assert Filter(a + b, isAlnum) == [a[0]] + Filter(a[1..] + b, isAlnum);
      }
    } else {
      assert a + b == b;
    }
  }

  lemma {:induction false} PrefixIsSubsequence<T>(a: seq<T>, b: seq<T>)
    requires |a| <= |b| && a == b[..|a|]
    ensures IsSubsequence(a, b)
    decreases |b|
  {
    if a != [] {
      PrefixIsSubsequence(a[1..], b[1..]);
    }
  }

  /** Dropping the first element of the larger sequence is harmless when
      the smaller one does not start with it. */
  lemma {:induction false} SubsequenceSkip<T>(a: seq<T>, b: seq<T>)
    requires b != [] && IsSubsequence(a, b[1..])
    ensures IsSubsequence(a, b)
    decreases |b|, 0
  {
    if a != [] && a[0] == b[0] {
      SubsequenceTail(a, b[1..]);
    }
  }

  lemma {:induction false} SubsequenceTail<T>(a: seq<T>, b: seq<T>)
    requires a != [] && IsSubsequence(a, b)
    ensures IsSubsequence(a[1..], b)
    decreases |b|, 1
  {
    if a[0] == b[0] {
      if a[1..] != [] {
        SubsequenceSkip(a[1..], b);
      }
    } else {
      SubsequenceTail(a, b[1..]);
      if a[1..] != [] {
        SubsequenceSkip(a[1..], b);
      }
    }
  }

  lemma {:induction false} SubsequenceTransitive<T>(a: seq<T>, b: seq<T>, c: seq<T>)
    requires IsSubsequence(a, b) && IsSubsequence(b, c)
    ensures IsSubsequence(a, c)
    decreases |c|
  {
    if a != [] && c != [] {
      if b[0] == c[0] {
        if a[0] == b[0] {
          SubsequenceTransitive(a[1..], b[1..], c[1..]);
        } else {
          SubsequenceTransitive(a, b[1..], c[1..]);
        }
      } else {
        SubsequenceTransitive(a, b, c[1..]);
        SubsequenceSkip(a, c);
      }
    }
  }

  /** A name with punctuation: `"greet@#1!"` becomes `"greet1"`. */
  lemma SanitizeExample()
    ensures SanitizeName("greet@#1!", AsciiAlnum) == "greet1"
  {
    assert Filter("!", AsciiAlnum) == "";
    assert Filter("1!", AsciiAlnum) == "1";
    assert Filter("#1!", AsciiAlnum) == "1";
    assert Filter("@#1!", AsciiAlnum) == "1";
    assert Filter("t@#1!", AsciiAlnum) == "t1";
    assert Filter("et@#1!", AsciiAlnum) == "et1";
    assert Filter("eet@#1!", AsciiAlnum) == "eet1";
    assert Filter("reet@#1!", AsciiAlnum) == "reet1";
    assert Filter("greet@#1!", AsciiAlnum) == "greet1";
    RStripFixed("greet1");
  }

  /** A name made only of punctuation is not empty, yet it cleans to "". */
  lemma PunctuationCleansToEmpty()
    ensures SanitizeName("@#!", AsciiAlnum) == ""
  {
    assert Filter("!", AsciiAlnum) == "";
    assert Filter("#!", AsciiAlnum) == "";
    assert Filter("@#!", AsciiAlnum) == "";
  }
}

=== FILE: staging.dfy ===
/** The conversion seen through the files it leaves in the batch's
    temporary directory, and the archive built from that directory.

    `text_to_speech_async_dual` stages the two voices of a dual-voice
    conversion in `{name}_voice1.mp3` and `{name}_voice2.mp3` next to the
    outputs, and deletes both once the merged file is written. Those names
    are also the output files of rows called `{name}_voice1` and
    `{name}_voice2`, and `create_zip_file` silently drops any collected
    path that no longer exists. `TempFiles` models the code as written;
    `InMemory` keeps the two voices out of the directory, which is what
    the rest of the model (`Synthesis.Convert`, `Batch.AudioFiles`) describes. */
module Staging {
  import opened Base
  import opened Audio
  import opened Synthesis
  import opened Naming
  import opened Batch
  import opened Sanitize
  import opened PyText

  /** The temporary directory: file name to contents. */
  type Dir = map<string, Bytes>

  /** Where a dual-voice conversion keeps the two voices' files. */
  datatype IntermediateStore = TempFiles | InMemory

  /** A conversion's effect on the directory, and the output path it
      returns or the error it raises. */
  datatype Step = Step(dir: Dir, result: Result<string>)

  /** Apart from the output and the two intermediates of the conversion
      named `name`, `dir'` holds the same files as `dir` with the same
      contents: none is removed, changed or added. */
  predicate OthersUnchanged(dir: Dir, dir': Dir, name: string) {
    && (forall f :: (f in dir && f != AudioFileName(name) && f != TempFileName(name, Voice1)
                     && f != TempFileName(name, Voice2)) ==> f in dir' && dir'[f] == dir[f])
    && (forall f :: (f in dir' && f != AudioFileName(name) && f != TempFileName(name, Voice1)
                     && f != TempFileName(name, Voice2)) ==> f in dir)
  }

  /** The file `f` is in `dir'` exactly when it is in `dir`, with the same
      contents. */
  predicate KeepsFile(dir: Dir, dir': Dir, f: string) {
    && (f in dir' <==> f in dir)
    && (f in dir ==> dir'[f] == dir[f])
  }

  /** The dual-voice branch as written: each service file is saved, read
      back, and both are deleted after the merged file is exported. A
      failure leaves whatever was saved so far in place. */
  function StagedDual(s: Services, dir: Dir, text: string, name: string, first: Voice, second: Voice): (st: Step)
    requires first != second
    ensures st.result.Ok? <==> Convert(s, text, first, Some(second)).Ok?
    ensures st.result.Ok? ==> && st.result.value == AudioFileName(name)
                              && st.result.value in st.dir
                              && st.dir[st.result.value] == Convert(s, text, first, Some(second)).value
                              && TempFileName(name, Voice1) !in st.dir
                              && TempFileName(name, Voice2) !in st.dir
    ensures st.result.Err? ==> Convert(s, text, first, Some(second)) == Err(st.result.error)
    ensures st.result.Err? ==> KeepsFile(dir, st.dir, AudioFileName(name))
    ensures OthersUnchanged(dir, st.dir, name)
  {
    var temp1, temp2, out := TempFileName(name, Voice1), TempFileName(name, Voice2), AudioFileName(name);
    TempFileNamesDistinct(name);
    match s.synthesize(text, first)
    case None => Step(dir, Err(SynthesisError(first)))
    case Some(bytes1) =>
      var dir1 := dir[temp1 := bytes1];
      match s.synthesize(text, second)
      case None => Step(dir1, Err(SynthesisError(second)))
      case Some(bytes2) =>
        var dir2 := dir1[temp2 := bytes2];
        match s.decode(dir2[temp1])
        case None => Step(dir2, Err(DecodeError))
        case Some(clip1) =>
          match s.decode(dir2[temp2])
          case None => Step(dir2, Err(DecodeError))
          case Some(clip2) =>
            match s.encode(Merge(clip1, clip2))
            case None => Step(dir2, Err(EncodeError))
            case Some(merged) => Step(dir2[out := merged] - {temp1, temp2}, Ok(out))
  }

  /** As written, the intermediates are deleted only after a successful
      export: when the first voice was saved but a later step fails, its
      file stays in the directory. */
  lemma StagedFailureKeepsIntermediate(s: Services, dir: Dir, text: string, name: string, first: Voice, second: Voice)
    requires first != second
    requires s.synthesize(text, first).Some?
    requires StagedDual(s, dir, text, name, first, second).result.Err?
    ensures TempFileName(name, Voice1) in StagedDual(s, dir, text, name, first, second).dir
  {
  }

  /** `text_to_speech_async_dual` on a directory: the output file
      `{name}.mp3` holds the conversion's result; single-voice mode writes
      only that file; dual-voice mode stages the voices as `staging` says. */
  function ConvertInDir(staging: IntermediateStore, s: Services, dir: Dir, text: string, name: string,
                        voice1: Voice, voice2: Option<Voice>): (st: Step)
    ensures st.result.Ok? <==> Convert(s, text, voice1, voice2).Ok?
    ensures st.result.Ok? ==> && st.result.value == AudioFileName(name)
                              && st.result.value in st.dir
                              && st.dir[st.result.value] == Convert(s, text, voice1, voice2).value
    ensures st.result.Err? ==> Convert(s, text, voice1, voice2) == Err(st.result.error)
    ensures st.result.Err? ==> KeepsFile(dir, st.dir, AudioFileName(name))
    ensures OthersUnchanged(dir, st.dir, name)
    ensures staging.InMemory? ==> forall f :: f in dir ==> f in st.dir
  {
    var out := AudioFileName(name);
    match PlanFor(voice1, voice2)
    case SingleVoice(v) =>
      (match Fetch(s, text, v)
       case Ok(bytes) => Step(dir[out := bytes], Ok(out))
       case Err(e) => Step(dir, Err(e)))
    case DualVoice(a, b) =>
      if staging.TempFiles? then StagedDual(s, dir, text, name, a, b)
      else
        match Convert(s, text, a, Some(b))
        case Ok(bytes) => Step(dir[out := bytes], Ok(out))
        case Err(e) => Step(dir, Err(e))
  }

  /** One row of the loop on a directory: the entry it collects, if any,
      as the pair `(audio_path, filename)` of `audio_files`. */
  datatype RowStep = RowStep(dir: Dir, collected: seq<(string, string)>)

  /** One pass of the row loop's body, on the directory. */
  function RowInDir(staging: IntermediateStore, cfg: Settings, dir: Dir, row: Row): (rs: RowStep)
    ensures |rs.collected| <= 1
    ensures |rs.collected| == 1 ==> && rs.collected[0].0 == AudioFileName(rs.collected[0].1)
                                    && rs.collected[0].0 in rs.dir
    ensures staging.InMemory? ==> forall f :: f in dir ==> f in rs.dir
  {
    match Prepare(row, cfg.isAlnum)
    case None => RowStep(dir, [])
    case Some(job) =>
      var st := ConvertInDir(staging, cfg.services, dir, job.text, job.name, cfg.voice1, cfg.voice2);
      if st.result.Ok? then RowStep(st.dir, [(st.result.value, job.name)])
      else RowStep(st.dir, [])
  }

  /** A row collects an entry exactly when the pure model converts it, under
      the same name, and its output file then holds the converted audio. */
  lemma RowInDirMatchesProcessRow(staging: IntermediateStore, cfg: Settings, dir: Dir, row: Row)
    ensures var rs := RowInDir(staging, cfg, dir, row);
      && (|rs.collected| == 1 <==> ProcessRow(cfg, row).Converted?)
      && (|rs.collected| == 1 ==> && rs.collected[0].1 == ProcessRow(cfg, row).name
                                  && rs.dir[rs.collected[0].0] == ProcessRow(cfg, row).audio)
  {
  }

  /** The loop on a directory: the directory after the last row, and
      `audio_files`. */
  datatype Run = Run(dir: Dir, collected: seq<(string, string)>)

  /** The whole row loop, on the directory. */
  function RunInDir(staging: IntermediateStore, cfg: Settings, dir: Dir, rows: seq<Row>): (run: Run)
    ensures |run.collected| <= |rows|
    ensures staging.InMemory? ==> forall f :: f in dir ==> f in run.dir
    decreases |rows|
  {
    if rows == [] then Run(dir, [])
    else
      var rs := RowInDir(staging, cfg, dir, rows[0]);
      var rest := RunInDir(staging, cfg, rs.dir, rows[1..]);
      Run(rest.dir, rs.collected + rest.collected)
  }

  /** The second components of `audio_files`: the collected names. */
  function CollectedNames(collected: seq<(string, string)>): (names: seq<string>)
    ensures |names| == |collected|
    ensures forall i :: 0 <= i < |names| ==> names[i] == collected[i].1
  {
    if collected == [] then [] else [collected[0].1] + CollectedNames(collected[1..])
  }

  /** The names of the entries of the pure model. */
  function EntryNames(files: seq<Entry>): (names: seq<string>)
    ensures |names| == |files|
    ensures forall i :: 0 <= i < |names| ==> names[i] == files[i].name
  {
    if files == [] then [] else [files[0].name] + EntryNames(files[1..])
  }

  /** Every collected path names a file of `dir`. */
  predicate PathsExist(dir: Dir, collected: seq<(string, string)>) {
    forall i :: 0 <= i < |collected| ==> collected[i].0 in dir
  }

  /** `create_zip_file`: each collected path that still exists becomes an
      entry `{filename}.mp3` holding the file's current contents; a missing
      path is skipped without a word. */
  function ZipEntries(dir: Dir, collected: seq<(string, string)>): (zip: seq<(string, Bytes)>)
    ensures |zip| <= |collected|
    ensures PathsExist(dir, collected) ==> |zip| == |collected|
    ensures PathsExist(dir, collected) ==>
      forall i :: 0 <= i < |zip| ==> zip[i] == (AudioFileName(collected[i].1), dir[collected[i].0])
  {
    if collected == [] then []
    else
      var (path, name) := collected[0];
      var rest := ZipEntries(dir, collected[1..]);
      if path in dir then [(AudioFileName(name), dir[path])] + rest else rest
  }

  /** A single collected pair gives one entry when its path exists and
      none when it does not. */
  lemma ZipOne(dir: Dir, c: (string, string))
    ensures ZipEntries(dir, [c]) == if c.0 in dir then [(AudioFileName(c.1), dir[c.0])] else []
  {
    assert [c][1..] == [];
  }

  /** The archive of two blocks of pairs is the archive of the first block
      followed by the archive of the second: every pair is kept or dropped
      on its own, and the order is kept. */
  lemma {:induction false} ZipAppend(dir: Dir, a: seq<(string, string)>, b: seq<(string, string)>)
    ensures ZipEntries(dir, a + b) == ZipEntries(dir, a) + ZipEntries(dir, b)
  {
    if a == [] {
      assert a + b == b;
    } else {
      assert (a + b)[0] == a[0];
      assert (a + b)[1..] == a[1..] + b;
      ZipAppend(dir, a[1..], b);
    }
  }

  /** The archive entry `e` is the one the pair `c` gives: its path exists,
      and `e` is named after it and holds its file. */
  predicate EntryOf(dir: Dir, c: (string, string), e: (string, Bytes)) {
    c.0 in dir && e == (AudioFileName(c.1), dir[c.0])
  }

  /** An archive entry is exactly a collected pair whose path still exists,
      named `{filename}.mp3` and holding that file. */
  lemma {:induction false} ZipMembers(dir: Dir, collected: seq<(string, string)>)
    ensures forall e :: e in ZipEntries(dir, collected) <==> exists i :: 0 <= i < |collected| && EntryOf(dir, collected[i], e)
  {
    if collected != [] {
      ZipMembers(dir, collected[1..]);
      var zip := ZipEntries(dir, collected);
      var rest := ZipEntries(dir, collected[1..]);
      forall e | e in zip
        ensures exists i :: 0 <= i < |collected| && EntryOf(dir, collected[i], e)
      {
        if e !in rest {
          assert EntryOf(dir, collected[0], e);
        } else {
          var j :| 0 <= j < |collected[1..]| && EntryOf(dir, collected[1..][j], e);
          assert collected[j + 1] == collected[1..][j];
        }
      }
      forall e, i | 0 <= i < |collected| && EntryOf(dir, collected[i], e)
        ensures e in zip
      {
        if i > 0 {
          assert collected[1..][i - 1] == collected[i];
        }
      }
    }
  }

  /** Whatever the staging, the loop collects exactly the rows the pure
      model converts, in order and under the same names. */
  lemma {:induction false} RunCollectsBatch(staging: IntermediateStore, cfg: Settings, dir: Dir, rows: seq<Row>)
    ensures CollectedNames(RunInDir(staging, cfg, dir, rows).collected) == EntryNames(AudioFiles(cfg, rows))
    decreases |rows|
  {
    if rows != [] {
      var rs := RowInDir(staging, cfg, dir, rows[0]);
      RowInDirMatchesProcessRow(staging, cfg, dir, rows[0]);
      RunCollectsBatch(staging, cfg, rs.dir, rows[1..]);
      var rest := RunInDir(staging, cfg, rs.dir, rows[1..]);
      assert Outcomes(cfg, rows) == [ProcessRow(cfg, rows[0])] + Outcomes(cfg, rows[1..]);
      NamesAppend(rs.collected, rest.collected);
      EntryNamesAppend(Contribution(ProcessRow(cfg, rows[0])), AudioFiles(cfg, rows[1..]));
    }
  }

  lemma {:induction false} NamesAppend(a: seq<(string, string)>, b: seq<(string, string)>)
    ensures CollectedNames(a + b) == CollectedNames(a) + CollectedNames(b)
  {
    if a == [] {
      assert a + b == b;
    } else {
      assert (a + b)[1..] == a[1..] + b;
      NamesAppend(a[1..], b);
    }
  }

  lemma {:induction false} EntryNamesAppend(a: seq<Entry>, b: seq<Entry>)
    ensures EntryNames(a + b) == EntryNames(a) + EntryNames(b)
  {
    if a == [] {
      assert a + b == b;
    } else {
      assert (a + b)[1..] == a[1..] + b;
      EntryNamesAppend(a[1..], b);
    }
  }

  /** Every path `audio_files` holds names a file of the directory:
      `PathsExist` on the two halves of a run. Taking the run whole lets
      the induction hypothesis about `RunInDir` be stated, and used, on
      one call. */
  predicate AllCollectedExist(run: Run) {
    PathsExist(run.dir, run.collected)
  }

  /** Prepending one row's step to the rest of a run keeps every collected
      path in place when the rest of the run deletes nothing. */
  lemma PrependKeepsPaths(rs: RowStep, rest: Run)
    requires PathsExist(rs.dir, rs.collected)
    requires forall f :: f in rs.dir ==> f in rest.dir
    requires AllCollectedExist(rest)
    ensures PathsExist(rest.dir, rs.collected + rest.collected)
  {
    var all := rs.collected + rest.collected;
    forall i | 0 <= i < |all|
      ensures all[i].0 in rest.dir
    {
      if i < |rs.collected| {
        assert all[i] == rs.collected[i];
      } else {
        assert all[i] == rest.collected[i - |rs.collected|];
      }
    }
  }

  /** With the voices kept in memory no file is ever deleted, so every
      collected path still exists after the loop. */
  lemma {:induction false} InMemoryCollectedExist(cfg: Settings, dir: Dir, rows: seq<Row>)
    ensures AllCollectedExist(RunInDir(InMemory, cfg, dir, rows))
    decreases |rows|
  {
    if rows != [] {
      var rs := RowInDir(InMemory, cfg, dir, rows[0]);
      InMemoryCollectedExist(cfg, rs.dir, rows[1..]);
      var rest := RunInDir(InMemory, cfg, rs.dir, rows[1..]);
      PrependKeepsPaths(rs, rest);
    }
  }

  /** The corrected behaviour: with the voices kept in memory the archive has
      one entry per collected row, named `{filename}.mp3`, holding that
      row's output file. */
  lemma InMemoryKeepsEveryEntry(cfg: Settings, dir: Dir, rows: seq<Row>)
    ensures var run := RunInDir(InMemory, cfg, dir, rows);
      && AllCollectedExist(run)
      && |ZipEntries(run.dir, run.collected)| == |run.collected|
      && forall i :: 0 <= i < |run.collected| ==>
           ZipEntries(run.dir, run.collected)[i] == (AudioFileName(run.collected[i].1), run.dir[run.collected[i].0])
  {
    var run := RunInDir(InMemory, cfg, dir, rows);
    InMemoryCollectedExist(cfg, dir, rows);
    assert PathsExist(run.dir, run.collected);
    var zip := ZipEntries(run.dir, run.collected);
  }

  /** As written, a converted dual-voice row deletes the files named after
      its two intermediates, whoever wrote them. */
  lemma StagedRowDeletesIntermediates(cfg: Settings, dir: Dir, row: Row)
    requires cfg.voice2.Some? && cfg.voice2.value != cfg.voice1
    requires ProcessRow(cfg, row).Converted?
    ensures var rs := RowInDir(TempFiles, cfg, dir, row);
      && TempFileName(ProcessRow(cfg, row).name, Voice1) !in rs.dir
      && TempFileName(ProcessRow(cfg, row).name, Voice2) !in rs.dir
  {
    RowInDirMatchesProcessRow(TempFiles, cfg, dir, row);
  }

  /** The loop over two rows, one step at a time. */
  lemma RunOfTwo(staging: IntermediateStore, cfg: Settings, dir: Dir, rows: seq<Row>)
    requires |rows| == 2
    ensures var rs0 := RowInDir(staging, cfg, dir, rows[0]);
      var rs1 := RowInDir(staging, cfg, rs0.dir, rows[1]);
      RunInDir(staging, cfg, dir, rows) == Run(rs1.dir, rs0.collected + rs1.collected)
  {
    var rs0 := RowInDir(staging, cfg, dir, rows[0]);
    assert rows[1..][1..] == [];
    assert RunInDir(staging, cfg, rs0.dir, rows[1..]) == Run(RowInDir(staging, cfg, rs0.dir, rows[1]).dir, RowInDir(staging, cfg, rs0.dir, rows[1]).collected + []);
  }

  /** The code as written loses an archive entry: in dual-voice mode, a row
      named `{n}_voice1` followed by a row named `{n}` both convert and are
      both collected, but the second row stages its first voice in
      `{n}_voice1.mp3`, overwriting the first row's output, then deletes it;
      the archive then holds one entry instead of two. */
  lemma TempFilesLoseEntry(cfg: Settings, dir: Dir, rows: seq<Row>, n: string)
    requires cfg.voice2.Some? && cfg.voice2.value != cfg.voice1
    requires |rows| == 2
    requires ProcessRow(cfg, rows[0]).Converted? && ProcessRow(cfg, rows[0]).name == n + "_voice1"
    requires ProcessRow(cfg, rows[1]).Converted? && ProcessRow(cfg, rows[1]).name == n
    ensures var run := RunInDir(TempFiles, cfg, dir, rows);
      && |run.collected| == 2
      && |ZipEntries(run.dir, run.collected)| == 1
  {
    var rs0 := RowInDir(TempFiles, cfg, dir, rows[0]);
    var rs1 := RowInDir(TempFiles, cfg, rs0.dir, rows[1]);
    RunOfTwo(TempFiles, cfg, dir, rows);
    RowInDirMatchesProcessRow(TempFiles, cfg, dir, rows[0]);
    RowInDirMatchesProcessRow(TempFiles, cfg, rs0.dir, rows[1]);
    StagedRowDeletesIntermediates(cfg, rs0.dir, rows[1]);
    TempFileNameIsAnOutput(n, Voice1);
    assert rs0.collected[0].0 !in rs1.dir;
    ZipSkipsMissing(rs1.dir, rs0.collected, rs1.collected);
  }

  /** Two single collected pairs, the first one's file missing and the
      second one's present: the archive holds one entry. */
  lemma ZipSkipsMissing(dir: Dir, first: seq<(string, string)>, second: seq<(string, string)>)
    requires |first| == 1 && |second| == 1
    requires first[0].0 !in dir && second[0].0 in dir
    ensures |ZipEntries(dir, first + second)| == 1
  {
    ZipAppend(dir, first, second);
    ZipOne(dir, first[0]);
    ZipOne(dir, second[0]);
    assert first == [first[0]] && second == [second[0]];
  }

  /** The same two rows with the voices kept in memory: both entries reach
      the archive. */
  lemma InMemoryKeepsBothEntries(cfg: Settings, dir: Dir, rows: seq<Row>, n: string)
    requires cfg.voice2.Some? && cfg.voice2.value != cfg.voice1
    requires |rows| == 2
    requires ProcessRow(cfg, rows[0]).Converted? && ProcessRow(cfg, rows[0]).name == n + "_voice1"
    requires ProcessRow(cfg, rows[1]).Converted? && ProcessRow(cfg, rows[1]).name == n
    ensures var run := RunInDir(InMemory, cfg, dir, rows);
      && |run.collected| == 2
      && |ZipEntries(run.dir, run.collected)| == 2
  {
    var rs0 := RowInDir(InMemory, cfg, dir, rows[0]);
    RunOfTwo(InMemory, cfg, dir, rows);
    RowInDirMatchesProcessRow(InMemory, cfg, dir, rows[0]);
    RowInDirMatchesProcessRow(InMemory, cfg, rs0.dir, rows[1]);
    InMemoryKeepsEveryEntry(cfg, dir, rows);
  }

  /** A speech service that answers every request, and a codec that reads
      every file as the empty clip and writes every clip as one byte. */
  const ExampleServices: Services :=
    Services((text: string, voice: Voice) => Some([1]), (bytes: Bytes) => Some([]), (clip: Clip) => Some([2]))

  /** Dual-voice mode with voices `A` and `B` and the services above. */
  const ExampleSettings: Settings := Settings(ExampleServices, "A", Some("B"), AsciiAlnum)

  /** Every text converts, in dual-voice mode, to the one byte 2. */
  lemma ExampleConverts(text: string)
    ensures Convert(ExampleSettings.services, text, ExampleSettings.voice1, ExampleSettings.voice2) == Ok([2])
  {
  }

  /** A row named `x` or `x_voice1` with text `hi` is converted under its
      own name. */
  lemma ExampleRowConverts(cfg: Settings, name: string)
    requires cfg == ExampleSettings
    requires name == "x" || name == "x_voice1"
    ensures ProcessRow(cfg, Row(name, "hi")) == Converted(name, [2])
  {
    ExampleConverts("hi");
    assert forall i :: 0 <= i < |name| ==> Allowed(name[i], cfg.isAlnum) && !IsSpace(name[i]);
    CleanRowConverted(cfg, name, "hi");
  }

  /** Both example rows are converted under their own names. */
  lemma ExampleRowsConvert(cfg: Settings, rows: seq<Row>)
    requires cfg == ExampleSettings
    requires rows == [Row("x_voice1", "hi"), Row("x", "hi")]
    ensures ProcessRow(cfg, rows[0]) == Converted("x" + "_voice1", [2])
    ensures ProcessRow(cfg, rows[1]) == Converted("x", [2])
  {
    assert "x" + "_voice1" == "x_voice1";
    ExampleRowConverts(cfg, "x_voice1");
    ExampleRowConverts(cfg, "x");
  }

  /** Rows `x_voice1` and `x`, voices `A` and `B`: as written the archive
      loses `x_voice1.mp3`; with the voices in memory it keeps both. */
  lemma LostEntryExample(rows: seq<Row>)
    requires rows == [Row("x_voice1", "hi"), Row("x", "hi")]
    ensures var written := RunInDir(TempFiles, ExampleSettings, map[], rows);
      && |written.collected| == 2
      && |ZipEntries(written.dir, written.collected)| == 1
    ensures var corrected := RunInDir(InMemory, ExampleSettings, map[], rows);
      |ZipEntries(corrected.dir, corrected.collected)| == 2
  {
    ExampleRowsConvert(ExampleSettings, rows);
    TempFilesLoseEntry(ExampleSettings, map[], rows, "x");
    InMemoryKeepsBothEntries(ExampleSettings, map[], rows, "x");
  }
}

=== FILE: synthesis.dfy ===
/** Single- and dual-voice conversion of one text (`text_to_speech_async_dual`).

    The speech service and the MP3 codec are not modelled; they are the
    three functions of `Services`, each of which may fail. */
module Synthesis {
  import opened Base
  import opened Audio

  /** The collaborators of a conversion.
      - `synthesize(text, voice)`: one call to the speech service; the MP3
        file it saves, or `None` when the call raises.
      - `decode(bytes)`: `AudioSegment.from_mp3`, or `None` when it raises.
      - `encode(clip)`: `export(..., format="mp3")`, or `None` when it raises. */
  datatype Services = Services(
    synthesize: (string, Voice) -> Option<Bytes>,
    decode: Bytes -> Option<Clip>,
    encode: Clip -> Option<Bytes>)

  /** One request to the speech service. */
  datatype Request = Request(text: string, voice: Voice)

  /** What a conversion does: read the text with one voice, or with two
      voices in a fixed order. */
  datatype Plan = SingleVoice(voice: Voice) | DualVoice(first: Voice, second: Voice)

  /** The dispatch: a missing second voice, or a second voice equal to the
      first, means single-voice mode. */
  function PlanFor(voice1: Voice, voice2: Option<Voice>): (p: Plan)
    ensures p.SingleVoice? <==> voice2.None? || voice2.value == voice1
    ensures p.SingleVoice? ==> p.voice == voice1
    ensures p.DualVoice? ==> p.first == voice1 && p.second == voice2.value && p.first != p.second
  {
    if voice2.None? || voice2.value == voice1 then SingleVoice(voice1)
    else DualVoice(voice1, voice2.value)
  }

  /** The speech-service requests a plan may issue, in order. */
  function Requests(text: string, p: Plan): (rs: seq<Request>)
    ensures forall i :: 0 <= i < |rs| ==> rs[i].text == text
  {
    match p
    case SingleVoice(v) => [Request(text, v)]
    case DualVoice(a, b) => [Request(text, a), Request(text, b)]
  }

  /** One service call, its failure attributed to the voice. */
  function Fetch(s: Services, text: string, voice: Voice): (r: Result<Bytes>)
    ensures r.Ok? <==> s.synthesize(text, voice).Some?
    ensures r.Ok? ==> r.value == s.synthesize(text, voice).value
    ensures r.Err? ==> r.error == SynthesisError(voice)
  {
    OrFail(s.synthesize(text, voice), SynthesisError(voice))
  }

  /** `text_to_speech_async_dual`: the contents of the file it returns.
      Single-voice mode hands back the service's file untouched; dual-voice
      mode synthesizes the text with both voices, decodes both files, and
      encodes first clip, silence, second clip. Any failure aborts the
      whole conversion. */
  function Convert(s: Services, text: string, voice1: Voice, voice2: Option<Voice>): (r: Result<Bytes>)
    ensures (voice2.None? || voice2.value == voice1) ==>
      && (r.Ok? <==> s.synthesize(text, voice1).Some?)
      && (r.Ok? ==> r.value == s.synthesize(text, voice1).value)
    ensures (voice2.Some? && voice2.value != voice1 && r.Ok?) ==>
      && s.synthesize(text, voice1).Some?
      && s.synthesize(text, voice2.value).Some?
    ensures r.Err? && r.error.SynthesisError? ==>
      r.error.voice == voice1 || (voice2.Some? && r.error.voice == voice2.value)
  {
    match PlanFor(voice1, voice2)
    case SingleVoice(v) => Fetch(s, text, v)
    case DualVoice(a, b) =>
      var bytes1 :- Fetch(s, text, a);
      var bytes2 :- Fetch(s, text, b);
      var clip1 :- OrFail(s.decode(bytes1), DecodeError);
      var clip2 :- OrFail(s.decode(bytes2), DecodeError);
      OrFail(s.encode(Merge(clip1, clip2)), EncodeError)
  }

  /** A successful dual-voice conversion is the encoding of the merge of
      the two decoded service files, the first voice's file first. */
  lemma DualVoiceLayout(s: Services, text: string, voice1: Voice, voice2: Voice)
    requires voice1 != voice2
    requires Convert(s, text, voice1, Some(voice2)).Ok?
    ensures s.synthesize(text, voice1).Some? && s.synthesize(text, voice2).Some?
    ensures var clip1 := s.decode(s.synthesize(text, voice1).value);
      var clip2 := s.decode(s.synthesize(text, voice2).value);
      && clip1.Some? && clip2.Some?
      && s.encode(Merge(clip1.value, clip2.value)) == Some(Convert(s, text, voice1, Some(voice2)).value)
  {
  }

  /** The converse of `DualVoiceLayout`: when both syntheses, both decodes
      and the export succeed, the dual-voice conversion succeeds with the
      exported merge. */
  lemma DualVoiceSucceeds(s: Services, text: string, voice1: Voice, voice2: Voice)
    requires voice1 != voice2
    requires s.synthesize(text, voice1).Some? && s.synthesize(text, voice2).Some?
    requires s.decode(s.synthesize(text, voice1).value).Some?
    requires s.decode(s.synthesize(text, voice2).value).Some?
    requires s.encode(Merge(s.decode(s.synthesize(text, voice1).value).value,
                            s.decode(s.synthesize(text, voice2).value).value)).Some?
    ensures Convert(s, text, voice1, Some(voice2))
         == Ok(s.encode(Merge(s.decode(s.synthesize(text, voice1).value).value,
                              s.decode(s.synthesize(text, voice2).value).value)).value)
  {
  }

  /** A dual-voice conversion fails at the first step that fails, and its
      error says which: the first voice, the second voice, a decode, or
      the export. */
  lemma DualVoiceErrors(s: Services, text: string, voice1: Voice, voice2: Voice)
    requires voice1 != voice2
    ensures s.synthesize(text, voice1).None? ==>
      Convert(s, text, voice1, Some(voice2)) == Err(SynthesisError(voice1))
    ensures s.synthesize(text, voice1).Some? && s.synthesize(text, voice2).None? ==>
      Convert(s, text, voice1, Some(voice2)) == Err(SynthesisError(voice2))
    ensures (s.synthesize(text, voice1).Some? && s.synthesize(text, voice2).Some?
      && (s.decode(s.synthesize(text, voice1).value).None? || s.decode(s.synthesize(text, voice2).value).None?)) ==>
      Convert(s, text, voice1, Some(voice2)) == Err(DecodeError)
    ensures (s.synthesize(text, voice1).Some? && s.synthesize(text, voice2).Some?
      && s.decode(s.synthesize(text, voice1).value).Some? && s.decode(s.synthesize(text, voice2).value).Some?
      && s.encode(Merge(s.decode(s.synthesize(text, voice1).value).value,
                        s.decode(s.synthesize(text, voice2).value).value)).None?) ==>
      Convert(s, text, voice1, Some(voice2)) == Err(EncodeError)
  {
  }

  /** If the codec reads back what it wrote for the merged clip, decoding
      a dual-voice result gives the first voice's clip, exactly 500 ms of
      silence, then the second voice's clip: its duration is the sum of
      the two durations plus the gap. */
  lemma DualVoiceDecodesToLayout(s: Services, text: string, voice1: Voice, voice2: Voice)
    requires voice1 != voice2
    requires Convert(s, text, voice1, Some(voice2)).Ok?
    requires forall c :: s.encode(c).Some? ==> s.decode(s.encode(c).value) == Some(c)
    ensures var clip1 := s.decode(s.synthesize(text, voice1).value).value;
      var clip2 := s.decode(s.synthesize(text, voice2).value).value;
      var out := s.decode(Convert(s, text, voice1, Some(voice2)).value);
      && out.Some?
      && |out.value| == |clip1| + GapMs + |clip2|
      && SilentGap(out.value, |clip1|)
      && Split(out.value, |clip1|) == (clip1, clip2)
  {
    DualVoiceLayout(s, text, voice1, voice2);
    var clip1 := s.decode(s.synthesize(text, voice1).value).value;
    var clip2 := s.decode(s.synthesize(text, voice2).value).value;
    SplitMerge(clip1, clip2);
  }

  /** A conversion depends on the speech service only through the requests
      of its plan: the same text, read by the first voice and, in dual
      mode, by the second. */
  lemma ConvertUsesOnlyPlannedRequests(s: Services, s': Services, text: string, voice1: Voice, voice2: Option<Voice>)
    requires s.decode == s'.decode && s.encode == s'.encode
    requires forall q :: q in Requests(text, PlanFor(voice1, voice2)) ==>
      s.synthesize(q.text, q.voice) == s'.synthesize(q.text, q.voice)
    ensures Convert(s, text, voice1, voice2) == Convert(s', text, voice1, voice2)
  {
    var p := PlanFor(voice1, voice2);
    match p
    case SingleVoice(v) =>
      assert Request(text, v) in Requests(text, p);
    case DualVoice(a, b) =>
      assert Request(text, a) in Requests(text, p);
      assert Request(text, b) in Requests(text, p);
  }

  /** Single-voice mode never touches the codec: the result is the same
      whatever `decode` and `encode` do, so no re-encoding happens. */
  lemma SingleVoiceIgnoresCodec(s: Services, s': Services, text: string, voice1: Voice, voice2: Option<Voice>)
    requires voice2.None? || voice2.value == voice1
    requires s.synthesize(text, voice1) == s'.synthesize(text, voice1)
    ensures Convert(s, text, voice1, voice2) == Convert(s', text, voice1, voice2)
  {
  }

  /** No partial merge: if either voice fails, so does the conversion,
      even when the other voice succeeded. */
  lemma DualVoiceFailsIfEitherVoiceFails(s: Services, text: string, voice1: Voice, voice2: Voice)
    requires voice1 != voice2
    requires s.synthesize(text, voice1).None? || s.synthesize(text, voice2).None?
    ensures Convert(s, text, voice1, Some(voice2)).Err?
  {
  }
}
